=== FILE: README.md ===
# Course-descriptions Slack bot, modelled in Dafny

`coursebot/coursedesc.py` is a small Slack bot. Each time it polls, it looks through
the batch of real-time events for the first plain message that directly mentions
the bot, as in `<@U0BOT> about ENPM694`. It then answers in that message's channel:

- `about …` gets the entry of the first code, in catalog order, that occurs anywhere in
  the command, or the default reply when none does;
- `help …` gets the list of course codes;
- anything else gets `Hmm, I don't understand.`

This project models that text path as pure Dafny functions over `seq<char>`:

- `text.dfy` (module `Text`): prefixes, substring search, Python's `str.isspace`
  and `str.strip()`, and "up to the first line feed".
- `mention.dfy` (module `Mention`): a hand-written recogniser for the fixed pattern
  `^<@(|[WU].+?)>(.*)`. Its declarative partner says "the text starts with
  `<@id>`, and no shorter id works". The function is proved equal to that
  description in both directions.
- `catalog.dfy` (module `Catalog`):
  - `about_course`, as a first-match scan over the eleven `(code, entry)` pairs
    of its `if/elif` chain;
  - `help_text`, as a loop over its own tuple of codes, with a declarative
    `Listing` partner.
- `router.dfy` (module `Router`): the reply that `handle_command` would post,
  including Python's `response or default_response`.
- `events.dfy` (module `Events`):
  - `parse_bot_commands` over a sequence of events, with missing dictionary
    keys raising `KeyError` in Python's lookup order;
  - one iteration of the main loop. It returns what is posted, that nothing is
    posted, or that a `KeyError` escapes.
- `scenarios.dfy` (module `Scenarios`): whole poll cycles over one-event batches.

Every function here is deterministic by construction, so "the same input gives the
same reply" needs no separate proof.

The pattern captures only ids that are empty or start with `W` or `U`, so a
message such as `<@BOT> …` is never a direct mention and gets no answer, whatever
the bot's own id is (`Scenarios.UnprefixedBotIdIgnored`).

## Model

| member | source | states |
|---|---|---|
| Text.Strip | coursebot/coursedesc.py:39 | `strip()` returns a contiguous slice of its input. Only Python white space is removed around it, and the slice neither begins nor ends with white space. It is empty exactly when the input is all white space. |
| Text.StripIs | coursebot/coursedesc.py:39 | Any slice with white space on both sides and none at its ends is what `strip()` returns, so the contract of `Strip` determines it. |
| Text.FirstLine | coursebot/coursedesc.py:15 | `(.*)` captures a prefix of the rest that holds no line feed and stops at a line feed or at the end. |
| Text.FirstLineOf | coursebot/coursedesc.py:15 | For a line with no line feed, followed by nothing or by a line feed and more, the first line is exactly that line. |
| Text.LineEnd | coursebot/coursedesc.py:15 | The end of the line starting at `i` is the first line feed at or after `i`, or the end of the text. |
| Text.SkipSpaces | coursebot/coursedesc.py:39 | Leading white space is skipped, and the scan stops at the first character that is not white space. |
| Text.DropTrailing | coursebot/coursedesc.py:39 | Trailing white space is dropped, back to the last character that is not white space. |
| Text.IsSpace | coursebot/coursedesc.py:39 | The code points Python's `str.isspace()` accepts, which `strip()` removes: U+0009 to U+000D, U+001C to U+0020, U+0085, U+00A0, U+1680, U+2000 to U+200A, U+2028, U+2029, U+202F, U+205F and U+3000. |
| Text.StartsWith | coursebot/coursedesc.py:101-103 | `command.startswith(p)`: the command's first `len(p)` characters are `p`, so a command shorter than `p` never matches. |
| Text.Contains | coursebot/coursedesc.py:46-66 | `re.search(code, command)` with a code free of special characters: the code occurs, case-sensitively and contiguously, at some index of the whole command. |
| Mention.FindClose | coursebot/coursedesc.py:15 | Lazy `.+?>`: the first `>` on the current line at or after `from`. If there is none, every later `>` has a line feed before it. |
| Mention.FindCloseAt | coursebot/coursedesc.py:15 | The lazy scan stops at the first `>` when no `>` or line feed comes before it. |
| Mention.Remainder | coursebot/coursedesc.py:39 | `matches.group(2).strip()`: what follows the closing `>` up to the first line feed, stripped. |
| Mention.CandidateShape | coursebot/coursedesc.py:15 | A match means the text starts with `<@`. With an empty id, `>` comes at index 2. Otherwise `W`/`U` is at index 2, a non-line-feed at index 3, and the closing `>` after the id with no line feed in between. |
| Mention.ParseDirectMention | coursebot/coursedesc.py:31-39 | `(None, None)` exactly when no id fits `<@id>` at the start. Otherwise the returned id is the shortest that fits, and the message is what follows its `>` up to the line's end, stripped. |
| Mention.ShortestNonEmpty | coursebot/coursedesc.py:15 | With `W`/`U` at index 2, the first `>` at index 4 or later on the same line closes the shortest id. |
| Mention.NoCandidateWithoutClose | coursebot/coursedesc.py:15-39 | If no `>` closes the id on its first line and `>` is not at index 2, there is no match. |
| Mention.NoCandidateAtStart | coursebot/coursedesc.py:15-39 | Without `<@>` or `<@W`/`<@U` and a non-line-feed at the start, there is no match. |
| Mention.ParseFindsAddressee | coursebot/coursedesc.py:31-39 | The parse returns id `id` if and only if `id` is the shortest id that fits at the start. |
| Mention.AddressesUnique | coursebot/coursedesc.py:15-39 | Each text addresses at most one id. |
| Mention.CandidateIsPrefix | coursebot/coursedesc.py:15 | A fitting id means the text begins with `"<@" + id + ">"`. |
| Mention.CandidateUnique | coursebot/coursedesc.py:15 | Two fitting ids of the same length are equal. |
| Mention.InvalidIdNeverAddressed | coursebot/coursedesc.py:15 | Ids the group cannot capture (a single letter, another first letter, a line feed) are never returned. |
| Mention.MidSentenceIgnored | coursebot/coursedesc.py:15-39 | The pattern is anchored: a text that does not start with `<@` gives `(None, None)`. |
| Mention.CandidateOnFirstLine | coursebot/coursedesc.py:15 | A matched id, with its brackets, lies within the text's first line. |
| Mention.NoCloseOnFirstLine | coursebot/coursedesc.py:15-39 | No `>` on the first line after `<@` means `(None, None)`. There is no partial parse. |
| Mention.NoShorterCandidate | coursebot/coursedesc.py:15 | A fitting id with no `>` at index 2 or later is the shortest one that fits. |
| Mention.RoundTrip | coursebot/coursedesc.py:15-39 | For an id the pattern can capture with no `>` after its second character, building `"<@" + id + ">" + line` (plus any later lines) and parsing it gives back `id` and `line` stripped. |
| Mention.ParsesUserAndCommand | coursebot/coursedesc.py:39 | `<@U12345> about ENPM611 ` parses to `U12345` and `about ENPM611`. |
| Mention.LazyIdExample | coursebot/coursedesc.py:15 | `<@U>>x` parses to id `U>`, the shortest id, and message `x`. |
| Mention.EmptyIdExample | coursebot/coursedesc.py:15 | The empty alternative comes first: `<@> help` parses to the empty id and `help`. |
| Mention.RemainderIsFirstLine | coursebot/coursedesc.py:15-39 | `.` stops at a line feed: the message is the first line only. |
| Mention.NewlineInIdRejected | coursebot/coursedesc.py:15 | A line feed before the closing `>` gives `(None, None)`. |
| Catalog.Codes | coursebot/coursedesc.py:46-66 | The codes of the `if/elif` chain, in order. |
| Catalog.FindCourse | coursebot/coursedesc.py:46-67 | The index of the first course whose code occurs in the command. It is None exactly when no code occurs. |
| Catalog.AboutCourse | coursebot/coursedesc.py:41-67 | None exactly when no code occurs anywhere in the command. Otherwise it is the entry of the first code, in declaration order. |
| Catalog.ShapeFacts | coursebot/coursedesc.py:46-66 | Codes of the catalog's shape hold `E` only at the front and no white space. Their fifth character tells the two lengths apart. |
| Catalog.CatalogShape | coursebot/coursedesc.py:46-66 | Every code of the chain has that shape, and the codes are pairwise distinct. |
| Catalog.OtherCodeAbsent | coursebot/coursedesc.py:46-66 | Two distinct codes of that shape never contain each other, even with `E`-free text around them. |
| Catalog.OwnCodeSelected | coursebot/coursedesc.py:46-67 | A command made of one code with no `E` around it gets exactly that code's entry, whatever its position in the chain. |
| Catalog.AboutOwnCode | coursebot/coursedesc.py:46-67 | `about <code>` gets that code's entry, for each of the eleven codes. |
| Catalog.NetworksAndProtocolsEntry | coursebot/coursedesc.py:58-59 | ENPM694 is the seventh code, and its entry is the Networks and Protocols line. |
| Catalog.FirstDeclaredWins | coursebot/coursedesc.py:46-59 | `about ENPM694 ENPM611` gets the ENPM611 entry: declaration order wins, not position in the command. |
| Catalog.HelpText | coursebot/coursedesc.py:69-84 | The loop builds the declarative message for any argument: the header, each code followed by one space, then the usage line. |
| Catalog.ListingSnoc | coursebot/coursedesc.py:79-80 | One more loop step appends one code and one space to the listing. |
| Catalog.ListingHoldsEachCode | coursebot/coursedesc.py:79-80 | Each code, followed by a space, sits in the listing at its computed offset. |
| Catalog.OffsetShift | coursebot/coursedesc.py:79-80 | The offset of code `i` is the first code's width plus one plus its offset in the rest. |
| Catalog.OffsetsIncrease | coursebot/coursedesc.py:79-80 | Later codes appear later in the listing. |
| Catalog.HelpListsTheCatalog | coursebot/coursedesc.py:46-76 | The help tuple equals the `about_course` codes, in the same order. |
| Catalog.HelpCodesAreTheCodes | coursebot/coursedesc.py:46-76 | The help tuple is exactly the code column of the `about_course` chain. |
| Catalog.MessageHoldsCode | coursebot/coursedesc.py:78-82 | Text placed before and after the listing shifts each code's position by the header's length. |
| Catalog.MessageHoldsBareCode | coursebot/coursedesc.py:78-82 | The same message holds each listed code at its offset. |
| Catalog.MessageLayout | coursebot/coursedesc.py:78-82 | A message built as header, listing and closing line starts with the header, ends with the closing line, and holds the codes at increasing offsets. |
| Catalog.ListingEAt | coursebot/coursedesc.py:79-80 | In a listing of catalog-shaped codes, every `E` is where one of the codes starts. |
| Catalog.MessageCodeAt | coursebot/coursedesc.py:78-82 | In `header + listing + usage`, with no `E` in the header and the usage line's only `E` starting `ENPM<`, a catalog-shaped code occurs only where the listing holds it. |
| Catalog.CodeOnceInMessage | coursebot/coursedesc.py:78-82 | With distinct codes, code `i` occurs in such a message at `k` if and only if `k` is its place in the listing. |
| Catalog.UsageShape | coursebot/coursedesc.py:82 | The usage line is a lead-in, then `ENPM<`, then `course_number>`. |
| Catalog.PiecesHaveNoE | coursebot/coursedesc.py:78-82 | The header, the usage line's lead-in and its tail after `ENPM<` hold no `E`. |
| Catalog.HelpCodesShape | coursebot/coursedesc.py:74-76 | The codes of the help tuple have the catalog's shape and are pairwise distinct. |
| Catalog.HelpCodeOnlyAtItsPlace | coursebot/coursedesc.py:74-84 | Each catalog code occurs in the help reply at `k` if and only if `k` is its place in the listing, so it occurs exactly once. |
| Catalog.HelpNamesEveryCourse | coursebot/coursedesc.py:74-84 | The help text starts with the header, names every catalog course in catalog order, and ends with the usage line. Each code occurs nowhere else in the reply. |
| Router.OrDefault | coursebot/coursedesc.py:110 | `response or default_response`: None and the empty string both give the default. |
| Router.Reply | coursebot/coursedesc.py:86-110 | The posted text is never empty and is the default, the help text or a catalog entry. `about` is checked first and gives the first hit's entry, or the default when no code occurs. `help` gives the help text. Anything else gives the default. |
| Router.EntriesAreNotDefault | coursebot/coursedesc.py:46-92 | No entry is empty or equal to the default, so `or` never masks an entry. |
| Router.AboutCodeReply | coursebot/coursedesc.py:101-102 | `about <code>` is answered with that code's entry. |
| Router.AboutWithoutSpace | coursebot/coursedesc.py:101-102 | `aboutENPM611` is an about-command, because the test is a literal prefix. |
| Router.AboutCheckedFirst | coursebot/coursedesc.py:101-104 | `about help` is routed to `about` and, with no code in it, gets the default. |
| Router.HelpByPrefix | coursebot/coursedesc.py:103-104 | Every command starting with `help` gets the help text. |
| Events.Examine | coursebot/coursedesc.py:25-28 | A missing `type` raises `KeyError('type')`. A plain message without `text` raises `KeyError('text')`. A plain message that addresses the bot but has no `channel` raises `KeyError('channel')`. A plain message gives a command exactly when it addresses the bot and has a channel. The command then carries that channel and the stripped message. |
| Events.Eligible | coursebot/coursedesc.py:25 | `event["type"] == "message" and not "subtype" in event`: a plain message. |
| Events.ParseBotCommands | coursebot/coursedesc.py:17-29 | `(None, None)` exactly when every event lets the scan go on. Otherwise the result is the first event that stops it. |
| Events.PollStep | coursebot/coursedesc.py:120-122 | A non-empty command gets the reply posted to its channel. An empty command or none posts nothing. A `KeyError` for `type`, `text` or `channel` escapes the loop, with the key the scan raised. |
| Events.Dispatch | coursebot/coursedesc.py:121-122 | A scan result is handled only when it is a non-empty command: the reply goes to that command's channel. `(None, None)` and an empty command send nothing, and a `KeyError` propagates with its key. |
| Events.LaterEventsIgnored | coursebot/coursedesc.py:24-28 | Once an event stops the scan, appending events to the batch changes nothing. |
| Events.AllPassTail | coursebot/coursedesc.py:24-29 | If a whole batch lets the scan go on, so does its tail. |
| Events.AllPassDrop | coursebot/coursedesc.py:24-29 | If the events before index `i` let the scan go on, the first one does, and so do the tail's events before index `i - 1`. |
| Events.FirstPasses | coursebot/coursedesc.py:24-29 | An event that lets the scan go on leaves the verdict to the rest of the batch. |
| Events.PassingEventsIgnored | coursebot/coursedesc.py:24-29 | Events that let the scan go on can be dropped from the front of a batch. |
| Events.IneligibleSkipped | coursebot/coursedesc.py:25 | A non-message event, or one with a `subtype`, is skipped whatever its text. |
| Events.OtherMentionSkipped | coursebot/coursedesc.py:26-27 | A plain message that does not address the bot is skipped. |
| Events.InvalidBotIdNeverCommanded | coursebot/coursedesc.py:15-27 | A bot id the pattern cannot capture is never commanded. |
| Events.ScanStopsAt | coursebot/coursedesc.py:24-29 | The first event that stops the scan decides its result. |
| Events.PollPostsFirstCommand | coursebot/coursedesc.py:120-122 | When the first event that stops the scan is a non-empty command for the bot, its reply is posted to that event's channel. |
| Events.MentionOfBot | coursebot/coursedesc.py:26-28 | For a bot id the pattern can capture with no `>` after its second character, a plain one-line message `<@bot>line` gives the command `line` stripped, with its channel. |
| Events.MentionAcrossLines | coursebot/coursedesc.py:15-40 | For a bot id the pattern can capture with no `>` after its second character, a message `<@bot>line`, where `line` holds no line feed, gives the command `line` stripped whether or not a line feed and further lines follow. |
| Events.BareMentionIdle | coursebot/coursedesc.py:121 | For a bot id the pattern can capture with no `>` after its second character, `<@bot>` followed by a first line that is only white space (whatever later lines hold) stops the scan and posts nothing. |
| Scenarios.AboutLine | coursebot/coursedesc.py:15-39 | ` about <code>` is one line, and stripping it gives `about <code>`. |
| Scenarios.AboutCommandPosted | coursebot/coursedesc.py:17-122 | For a bot id the pattern can capture with no `>` after its second character, `<@bot> about <code>` posts that course's entry to the message's channel, for every code. |
| Scenarios.AboutCourseIsPosted | coursebot/coursedesc.py:58-122 | `<@U0BOT> about ENPM694` in `C1` posts the ENPM694 entry to `C1`. |
| Scenarios.OtherUserIgnored | coursebot/coursedesc.py:27 | `<@U0OTHER> about ENPM694` posts nothing for bot `U0BOT`. |
| Scenarios.UnknownCommandGetsDefault | coursebot/coursedesc.py:92-110 | `<@U0BOT> foobar` posts `Hmm, I don't understand.` |
| Scenarios.UnprefixedBotIdIgnored | coursebot/coursedesc.py:15-27 | `<@BOT> about ENPM694` posts nothing, because `BOT` does not start with `W` or `U`. |
| Scenarios.CommandOnNextLineIgnored | coursebot/coursedesc.py:15-40 | `<@U1>` followed by a line feed and `help` posts nothing for bot `U1`: `(.*)` stops at the line feed, so the command is empty. |

## Left out

- The `SlackClient` and the token read from the environment (line 8) are not modelled: they are a foreign library and the process environment.
- `rtm_connect`, `auth.test`, `rtm_read` and `chat.postMessage` are network calls. The bot id is a parameter, the event batch is an argument, and the send is the returned `Post` value.
- The module-global bot id and its `None` value before start-up (lines 10, 118) are left out. The bot id is always a string here.
- The `while True` loop, `time.sleep` and the `print` calls (lines 113-125) are left out. Only one loop iteration is modelled.
- Python's general `re` engine is left out. Only the one mention pattern is modelled. `about_course`'s `re.search` uses codes with no special characters, so it is plain substring search.
- Event values other than strings are left out. `text` and `channel` are strings or absent. An `int` in `text` would make Python raise `TypeError`, and that is not modelled.
- Python strings may hold lone surrogate code points. Dafny's `char` cannot.
- Catalog.NetworksAndProtocolsEntry: facts about the entry text, such as the instructor's name, are stated as equality with the whole entry string, not as substring properties.

=== FILE: catalog.dfy ===
/**
  The course catalog: `about_course`, a first-match-wins substring scan over
  eleven course codes in a fixed order, and `help_text`, which lists the codes
  from its own tuple. The two lists are kept in sync by hand in the source;
  here a lemma proves they agree.
*/
module Catalog {
  import opened Wrappers
  import opened Text

  /** One branch of the `if`/`elif` chain: the code searched for and the text returned. */
  datatype Course = Course(code: string, entry: string)

  /** The chain of `about_course`, in declaration order. */
  const Courses: seq<Course> := [
    Course("ENPM611", "ENPM 611; Software Engineering; Christopher Ackermann; 0101; Monday 4:00 - 6:40 PM; JMP 2121"),
    Course("ENPM613", "ENPM 613; Software Design and Implementation; Ioana Rus; 0101; Wednesday 7:00 - 9:40 PM; TBA"),
    Course("ENPM631", "ENPM631; TCP/IP Networking; Pedram Fard; 0101; Tuesday 7:00 - 9:40 PM; TBA"),
    Course("ENPM687", "ENPM687; Digital Forensics and Incidence Response; Jonas Amoonarquah; Online;"),
    Course("ENPM691", "ENPM691; Hacking of C Programs and Unix Binaries; Dharmalingam Ganesan; 0101; Thursday 7:00 - 9:40 PM; JMP 3201"),
    Course("ENPM693", "ENPM693; Network Security; Sohraab Soltani; 0101; Tuesday 7:00 - 9:40 PM; JMP 3201"),
    Course("ENPM694", "ENPM694; Networks and Protocols; Sohraab Soltani; 0101; Wednesday 7:00 - 9:40 PM; JMP 3201"),
    Course("ENPM696", "ENPM696; Reverse Software Engineering; Allen Hazelton; 0101; Tuesday 4:00 - 6:40 PM; TBA"),
    Course("ENPM809J", "ENPM809J; Cloud Security; Kevin Shivers; 0101; Monday 7:00 - 9:40 PM; TBA; 0201; Thursday 4:00 - 6:40 PM; TBA"),
    Course("ENPM809R", "ENPM809R; Software Defined Networking; Emre Gunduzhan; 0101; Monday 4:00 - 6:40 PM; TBA"),
    Course("ENPM809W", "ENPM809W; Security and Software; Mikael Lindvall; 0101; Thursday 7:00 - 9:40 PM; TBA")
  ]

  /** The codes of the chain, in order. */
  function Codes(courses: seq<Course>): (codes: seq<string>)
    ensures |codes| == |courses|
    ensures forall i :: 0 <= i < |courses| ==> codes[i] == courses[i].code
  {
    if courses == [] then [] else [courses[0].code] + Codes(courses[1..])
  }

  /** Course `i` is the first whose code occurs in `command`. */
  predicate FirstHit(courses: seq<Course>, command: string, i: int) {
    && 0 <= i < |courses|
    && Contains(command, courses[i].code)
    && forall j :: 0 <= j < i ==> !Contains(command, courses[j].code)
  }

  /**
    The scan of the chain: the index of the first course whose code occurs in
    `command`, or None when no code occurs.
  */
  function FindCourse(courses: seq<Course>, command: string): (r: Option<nat>)
    ensures r.Some? ==> FirstHit(courses, command, r.value)
    ensures r.None? <==> forall j :: 0 <= j < |courses| ==> !Contains(command, courses[j].code)
  {
    if courses == [] then None
    else if Contains(command, courses[0].code) then Some(0)
    else match FindCourse(courses[1..], command)
      case None => None
      case Some(i) => Some(i + 1)
  }

  /**
    `about_course(command)`: the entry of the first course, in declaration
    order, whose code occurs anywhere in the whole command (the `about` prefix
    included); None when none occurs.
  */
  function AboutCourse(command: string): (r: Option<string>)
    ensures r.None? <==> forall j :: 0 <= j < |Courses| ==> !Contains(command, Courses[j].code)
    ensures forall i :: FirstHit(Courses, command, i) ==> r == Some(Courses[i].entry)
  {
    match FindCourse(Courses, command)
    case None => None
    case Some(i) => Some(Courses[i].entry)
  }

  /** No `E` in `s`: the letter every course code starts with. */
  predicate NoE(s: string) {
    forall k :: 0 <= k < |s| ==> s[k] != 'E'
  }

  /**
    The shape shared by the catalog's codes: `ENPM`, then either `6` and two
    digits (seven characters) or `809` and a capital other than `E` (eight).
  */
  predicate CodeShape(c: string) {
    && |c| >= 7
    && c[0] == 'E' && c[1] == 'N' && c[2] == 'P' && c[3] == 'M'
    && ((|c| == 7 && c[4] == '6' && '0' <= c[5] <= '9' && '0' <= c[6] <= '9')
        || (|c| == 8 && c[4] == '8' && c[5] == '0' && c[6] == '9' && 'A' <= c[7] <= 'Z' && c[7] != 'E'))
  }

  /**
    What the shape gives: `E` only at the front, no white space or line
    break anywhere, and the fifth character tells the two lengths apart.
  */
  lemma ShapeFacts(c: string)
    requires CodeShape(c)
    ensures NoE(c[1..])
    ensures forall k :: 0 <= k < |c| ==> !IsSpace(c[k]) && c[k] != '\n'
    ensures c[4] == '6' <==> |c| == 7
  {
  }

  lemma CatalogShape()
    ensures forall i :: 0 <= i < |Courses| ==> CodeShape(Courses[i].code)
    ensures forall i, j :: 0 <= i < j < |Courses| ==> Courses[i].code != Courses[j].code
  {
  }

  /**
    A code `b` of the catalog's shape does not occur in `p + a + q` when `a` is
    another such code and neither `p` nor `q` contains an `E`: the only `E`
    is where `a` starts, and there `a` and `b` disagree.
  */
  lemma {:induction false} OtherCodeAbsent(p: string, a: string, q: string, b: string)
    requires NoE(p) && NoE(q)
    requires CodeShape(a) && CodeShape(b) && a != b
    ensures !Contains(p + a + q, b)
  {
    var s := p + a + q;
    ShapeFacts(a);
    ShapeFacts(b);
    // Where `a` and `b` first disagree, within the shorter of the two.
    var m: nat;
    if |a| == |b| {
      m :| m < |a| && a[m] != b[m];
    } else {
      m := 4;
    }
    forall k | 0 <= k <= |s| - |b|
      ensures !OccursAt(s, b, k)
    {
      if k < |p| {
        assert s[k] == p[k];
      } else if k == |p| {
        assert s[k + m] == a[m];
      } else if k < |p| + |a| {
        assert s[k] == a[1..][k - |p| - 1];
      } else {
        assert s[k] == q[k - |p| - |a|];
      }
      assert s[k..k + |b|][0] == s[k] && s[k..k + |b|][m] == s[k + m];
    }
  }

  /**
    Any command made of a catalog code with no `E` before or after it (so
    `about ENPM694`, `aboutENPM611`, `about ENPM809W please`) gets exactly that
    course's entry.
  */
  lemma OwnCodeSelected(p: string, i: int, q: string)
    requires 0 <= i < |Courses| && NoE(p) && NoE(q)
    ensures AboutCourse(p + Courses[i].code + q) == Some(Courses[i].entry)
  {
    var command := p + Courses[i].code + q;
    CatalogShape();
    assert OccursAt(command, Courses[i].code, |p|);
    forall j | 0 <= j < i
      ensures !Contains(command, Courses[j].code)
    {
      OtherCodeAbsent(p, Courses[i].code, q, Courses[j].code);
    }
    assert FirstHit(Courses, command, i);
  }

  /** `about <code>` gets that course's entry, for every code of the catalog. */
  lemma AboutOwnCode(i: int)
    requires 0 <= i < |Courses|
    ensures AboutCourse("about " + Courses[i].code) == Some(Courses[i].entry)
  {
    assert "about " + Courses[i].code + "" == "about " + Courses[i].code;
    OwnCodeSelected("about ", i, "");
  }

  /** The seventh branch of the chain: ENPM694, Networks and Protocols. */
  lemma NetworksAndProtocolsEntry()
    ensures Courses[6] == Course("ENPM694", "ENPM694; Networks and Protocols; Sohraab Soltani; 0101; Wednesday 7:00 - 9:40 PM; JMP 3201")
  {
  }

  /** Declaration order decides between two codes: `ENPM611` beats `ENPM694` wherever each occurs. */
  lemma FirstDeclaredWins()
    ensures AboutCourse("about ENPM694 ENPM611") == Some(Courses[0].entry)
  {
    var command := "about ENPM694 ENPM611";
    assert command == "about ENPM694 " + "ENPM611";
    assert command[14..21] == "ENPM611";
    assert OccursAt(command, Courses[0].code, 14);
    assert FirstHit(Courses, command, 0);
  }

  /** The opening words of the help reply. */
  const HelpHeader := "I have course descriptions for: "

  /** The usage line that closes the help reply. */
  const HelpUsage := "\nTo get the course description, execute command: about ENPM<course_number>"

  /** The tuple `courses_list` of `help_text`, written out separately from the chain. */
  const HelpCodes: seq<string> := [
    "ENPM611", "ENPM613", "ENPM631", "ENPM687",
    "ENPM691", "ENPM693", "ENPM694", "ENPM696",
    "ENPM809J", "ENPM809R", "ENPM809W"
  ]

  /** Each code followed by one space, in order. */
  function Listing(codes: seq<string>): string {
    if codes == [] then [] else codes[0] + " " + Listing(codes[1..])
  }

  /** The help reply, declaratively: header, listing, usage line. */
  const HelpMessage := HelpHeader + Listing(HelpCodes) + HelpUsage

  /** Appending one more code to the listing appends that code and a space. */
  lemma {:induction false} ListingSnoc(codes: seq<string>, c: string)
    ensures Listing(codes + [c]) == Listing(codes) + c + " "
  {
    if codes == [] {
      assert [] + [c] == [c];
      assert Listing([c]) == c + " " + Listing([]);
    } else {
      assert (codes + [c])[1..] == codes[1..] + [c];
      ListingSnoc(codes[1..], c);
    }
  }

  /**
    `help_text(command)`, following its loop: whatever the command, the reply
    is the header, every code of the tuple followed by a space, and the usage
    line.
  */
  method HelpText(command: string) returns (response: string)
    ensures response == HelpMessage
  {
    response := HelpHeader;
    var i := 0;
    while i < |HelpCodes|
      invariant 0 <= i <= |HelpCodes|
      invariant response == HelpHeader + Listing(HelpCodes[..i])
    {
      ListingSnoc(HelpCodes[..i], HelpCodes[i]);
      assert HelpCodes[..i + 1] == HelpCodes[..i] + [HelpCodes[i]];
      response := response + HelpCodes[i] + " ";
      i := i + 1;
    }
    assert HelpCodes[..i] == HelpCodes;
    response := response + HelpUsage;
  }

  /** Where code `i` of `codes` starts inside `Listing(codes)`. */
  function ListingOffset(codes: seq<string>, i: nat): nat
    requires i <= |codes|
  {
    if i == 0 then 0 else ListingOffset(codes, i - 1) + |codes[i - 1]| + 1
  }

  /** The listing holds every code, followed by a space, at its offset, in order. */
  lemma {:induction false} ListingHoldsEachCode(codes: seq<string>, i: nat)
    requires i < |codes|
    ensures ListingOffset(codes, i) + |codes[i]| < |Listing(codes)|
    ensures OccursAt(Listing(codes), codes[i] + " ", ListingOffset(codes, i))
    decreases i
  {
    if i == 0 {
      assert Listing(codes) == codes[0] + " " + Listing(codes[1..]);
      assert Listing(codes)[..|codes[0]| + 1] == codes[0] + " ";
    } else {
      var tail := codes[1..];
      ListingHoldsEachCode(tail, i - 1);
      OffsetShift(codes, i);
      var head := codes[0] + " ";
      assert Listing(codes) == head + Listing(tail);
      var k := ListingOffset(tail, i - 1);
      assert Listing(codes)[|head| + k..|head| + k + |codes[i]| + 1]
             == Listing(tail)[k..k + |tail[i - 1]| + 1];
    }
  }

  /** Offsets in `codes` are those in `codes[1..]` shifted by the first code and its space. */
  lemma {:induction false} OffsetShift(codes: seq<string>, i: nat)
    requires 0 < i <= |codes|
    ensures ListingOffset(codes, i) == |codes[0]| + 1 + ListingOffset(codes[1..], i - 1)
    decreases i
  {
    if i > 1 {
      OffsetShift(codes, i - 1);
    }
  }

  /** `help_text` lists exactly the codes `about_course` tests, in the same order. */
  lemma HelpListsTheCatalog()
    ensures |HelpCodes| == |Courses|
    ensures forall i :: 0 <= i < |Courses| ==> HelpCodes[i] == Courses[i].code
  {
  }

  /** The help tuple is the chain's code column. */
  lemma HelpCodesAreTheCodes()
    ensures HelpCodes == Codes(Courses)
  {
    HelpListsTheCatalog();
    CodesAre(Courses, HelpCodes);
  }

  /** A list of codes matching the courses one by one is their code column. */
  lemma CodesAre(courses: seq<Course>, codes: seq<string>)
    requires |codes| == |courses|
    requires forall i :: 0 <= i < |courses| ==> codes[i] == courses[i].code
    ensures codes == Codes(courses)
  {
  }

  /** A message made of a header, a listing and a closing line holds each listed code at its offset. */
  lemma MessageHoldsCode(header: string, codes: seq<string>, closing: string, i: nat)
    requires i < |codes|
    ensures OccursAt(header + Listing(codes) + closing, codes[i] + " ", |header| + ListingOffset(codes, i))
  {
    ListingHoldsEachCode(codes, i);
    OccursInContext(header, Listing(codes), closing, codes[i] + " ", ListingOffset(codes, i));
  }

  /** The same message holds each listed code itself at that offset. */
  lemma MessageHoldsBareCode(header: string, codes: seq<string>, closing: string, i: nat)
    requires i < |codes|
    ensures OccursAt(header + Listing(codes) + closing, codes[i], |header| + ListingOffset(codes, i))
  {
    ListingHoldsEachCode(codes, i);
    OccursPrefix(Listing(codes), codes[i], " ", ListingOffset(codes, i));
    OccursInContext(header, Listing(codes), closing, codes[i], ListingOffset(codes, i));
  }

  /** Any message laid out as header, listing and closing line starts with the header, ends with the closing line, and holds the codes in order. */
  lemma MessageLayout(header: string, codes: seq<string>, closing: string, i: nat)
    requires i < |codes|
    ensures StartsWith(header + Listing(codes) + closing, header)
    ensures |closing| <= |header + Listing(codes) + closing|
    ensures (header + Listing(codes) + closing)[|header + Listing(codes) + closing| - |closing|..] == closing
    ensures OccursAt(header + Listing(codes) + closing, codes[i] + " ", |header| + ListingOffset(codes, i))
    ensures forall j :: 0 <= j < i ==> ListingOffset(codes, j) < ListingOffset(codes, i)
  {
    var l := Listing(codes);
    assert (header + l + closing)[..|header|] == header;
    assert (header + l + closing)[|header| + |l|..] == closing;
    MessageHoldsCode(header, codes, closing, i);
    OffsetsIncrease(codes, i);
  }

  /**
    The help reply names every course of the catalog, each followed by a
    space, in catalog order, between the header and the usage line, and
    names each exactly once.
  */
  lemma HelpNamesEveryCourse(i: int)
    requires 0 <= i < |Courses|
    ensures StartsWith(HelpMessage, HelpHeader)
    ensures OccursAt(HelpMessage, Courses[i].code + " ", |HelpHeader| + ListingOffset(HelpCodes, i))
    ensures forall j :: 0 <= j < i ==> ListingOffset(HelpCodes, j) < ListingOffset(HelpCodes, i)
    ensures |HelpUsage| <= |HelpMessage| && HelpMessage[|HelpMessage| - |HelpUsage|..] == HelpUsage
    ensures forall k :: OccursAt(HelpMessage, Courses[i].code, k) ==> k == |HelpHeader| + ListingOffset(HelpCodes, i)
  {
    assert Courses[i].code == HelpCodes[i] by {
      HelpListsTheCatalog();
    }
    MessageLayout(HelpHeader, HelpCodes, HelpUsage, i);
    forall k | OccursAt(HelpMessage, Courses[i].code, k)
      ensures k == |HelpHeader| + ListingOffset(HelpCodes, i)
    {
      HelpCodeOnlyAtItsPlace(i, k);
    }
  }

  /** Inside a listing of catalog-shaped codes, every `E` is where some code starts. */
  lemma {:induction false} ListingEAt(codes: seq<string>, t: nat)
    requires forall j :: 0 <= j < |codes| ==> CodeShape(codes[j])
    ensures t < |Listing(codes)| && Listing(codes)[t] == 'E' ==>
              exists j :: 0 <= j < |codes| && t == ListingOffset(codes, j)
    decreases |codes|
  {
    if codes != [] && t < |Listing(codes)| && Listing(codes)[t] == 'E' {
      var tail := codes[1..];
      var head := codes[0] + " ";
      assert Listing(codes) == head + Listing(tail);
      ShapeFacts(codes[0]);
      if t == 0 {
        assert t == ListingOffset(codes, 0);
      } else if t < |head| {
        assert false;
      } else {
        var u := t - |head|;
        assert Listing(tail)[u] == Listing(codes)[t];
        ListingEAt(tail, u);
        var j :| 0 <= j < |tail| && u == ListingOffset(tail, j);
        OffsetShift(codes, j + 1);
      }
    }
  }

  /** Two catalog-shaped codes starting at the same place, the second followed by a space, are the same code. */
  lemma SameStartSameCode(s: string, c: string, d: string, k: int)
    requires CodeShape(c) && CodeShape(d)
    ensures OccursAt(s, c, k) && OccursAt(s, d + " ", k) ==> c == d
  {
    if OccursAt(s, c, k) && OccursAt(s, d + " ", k) && c != d {
      ShapeFacts(c);
      ShapeFacts(d);
      // Where `c` and `d` first disagree, within the shorter of the two.
      var m := 4;
      if |d| == |c| {
        m :| 0 <= m < |c| && d[m] != c[m];
      }
      OccursAtChar(s, c, k, m);
      OccursAtChar(s, d + " ", k, m);
    }
  }

  /** A catalog-shaped code starting inside a listing starts where the listing holds that very code. */
  lemma CodeInListing(header: string, codes: seq<string>, closing: string, c: string, k: int)
    requires CodeShape(c)
    requires forall j :: 0 <= j < |codes| ==> CodeShape(codes[j])
    ensures |header| <= k < |header| + |Listing(codes)| && OccursAt(header + Listing(codes) + closing, c, k) ==>
              exists j :: 0 <= j < |codes| && codes[j] == c && k == |header| + ListingOffset(codes, j)
  {
    var l := Listing(codes);
    var s := header + l + closing;
    if |header| <= k < |header| + |l| && OccursAt(s, c, k) {
      var t := k - |header|;
      OccursAtChar(s, c, k, 0);
      assert l[t] == s[k];
      ListingEAt(codes, t);
      var j :| 0 <= j < |codes| && t == ListingOffset(codes, j);
      MessageHoldsCode(header, codes, closing, j);
      SameStartSameCode(s, c, codes[j], k);
    }
  }

  /** A catalog-shaped code does not start in `lead + "ENPM<" + rest` after `pre`, when `lead` and `rest` hold no `E`. */
  lemma NoCodeInClosing(pre: string, lead: string, rest: string, c: string, k: int)
    requires 'E' !in lead && 'E' !in rest && CodeShape(c)
    ensures k >= |pre| ==> !OccursAt(pre + (lead + "ENPM<" + rest), c, k)
  {
    var closing := lead + "ENPM<" + rest;
    var s := pre + closing;
    if k >= |pre| && OccursAt(s, c, k) {
      ShapeFacts(c);
      OccursAtChar(s, c, k, 0);
      OccursAtChar(s, c, k, 4);
    }
  }

  /**
    In `header + listing + lead + "ENPM<" + rest` (the help reply's layout), a
    catalog-shaped code occurs only where the listing holds it, when `header`,
    `lead` and `rest` hold no `E`.
  */
  lemma MessageCodeAt(header: string, codes: seq<string>, lead: string, rest: string, c: string, k: int)
    requires 'E' !in header && 'E' !in lead && 'E' !in rest && CodeShape(c)
    requires forall j :: 0 <= j < |codes| ==> CodeShape(codes[j])
    ensures OccursAt(header + Listing(codes) + (lead + "ENPM<" + rest), c, k) ==>
              exists j :: 0 <= j < |codes| && codes[j] == c && k == |header| + ListingOffset(codes, j)
  {
    var l := Listing(codes);
    var closing := lead + "ENPM<" + rest;
    var s := header + l + closing;
    OccursAtChar(s, c, k, 0);
    CodeInListing(header, codes, closing, c, k);
    NoCodeInClosing(header + l, lead, rest, c, k);
    if 0 <= k < |header| {
      assert s[k] == header[k];
    }
  }

  /**
    The help reply's usage line is `ENPM<` between a lead-in and the
    placeholder's rest. The literals are parameters pinned by `requires`,
    which keeps the solver from unfolding them.
  */
  lemma UsageShape(lead: string, rest: string)
    requires lead == "\nTo get the course description, execute command: about "
    requires rest == "course_number>"
    ensures HelpUsage == lead + "ENPM<" + rest
  {
  }

  /**
    Around the only `ENPM<` of the usage line, neither the header, the
    lead-in nor the tail holds an `E`. The literals are parameters pinned by `requires`,
    which keeps the solver from unfolding them.
  */
  lemma PiecesHaveNoE(lead: string, rest: string)
    requires lead == "\nTo get the course description, execute command: about " && rest == "course_number>"
    ensures 'E' !in HelpHeader && 'E' !in lead && 'E' !in rest
  {
    LeadHasNoE(lead);
  }

  /**
    The lead-in of the usage line holds no `E`. The literal is a parameter pinned by `requires`,
    which keeps the solver from unfolding it.
  */
  lemma LeadHasNoE(lead: string)
    requires lead == "\nTo get the course description, execute command: about "
    ensures 'E' !in lead
  {
    var a, b := "\nTo get the course ", "description, execute command: about ";
    LeadPieces(a, b, lead);
    assert 'E' !in a;
    assert 'E' !in b;
  }

  /**
    The lead-in, cut in two. The literals are parameters pinned by `requires`,
    which keeps the solver from unfolding them.
  */
  lemma LeadPieces(a: string, b: string, lead: string)
    requires a == "\nTo get the course " && b == "description, execute command: about "
    requires lead == "\nTo get the course description, execute command: about "
    ensures lead == a + b
  {
  }

  /**
    In a message of the help reply's layout over distinct catalog-shaped codes,
    each code occurs exactly once: at its place in the listing. The message and
    the code are given by equations, so that a caller with literal arguments
    can use the lemma without unfolding them.
  */
  lemma CodeOnceInMessage(s: string, c: string, header: string, codes: seq<string>, lead: string, rest: string, i: int, k: int)
    requires 'E' !in header && 'E' !in lead && 'E' !in rest
    requires forall j :: 0 <= j < |codes| ==> CodeShape(codes[j])
    requires forall j, j' :: 0 <= j < j' < |codes| ==> codes[j] != codes[j']
    requires 0 <= i < |codes| && c == codes[i]
    requires s == header + Listing(codes) + (lead + "ENPM<" + rest)
    ensures OccursAt(s, c, k) <==> k == |header| + ListingOffset(codes, i)
  {
    assert OccursAt(s, c, |header| + ListingOffset(codes, i)) by {
      MessageHoldsBareCode(header, codes, lead + "ENPM<" + rest, i);
    }
    assert OccursAt(s, c, k) ==> k == |header| + ListingOffset(codes, i) by {
      MessageCodeAt(header, codes, lead, rest, c, k);
      if OccursAt(s, c, k) {
        var j :| 0 <= j < |codes| && codes[j] == c && k == |header| + ListingOffset(codes, j);
        SameCodeSameIndex(codes, j, i);
      }
    }
  }

  /** In a list of distinct codes, equal codes sit at the same index. */
  lemma SameCodeSameIndex(codes: seq<string>, j: int, j': int)
    requires forall a, b :: 0 <= a < b < |codes| ==> codes[a] != codes[b]
    requires 0 <= j < |codes| && 0 <= j' < |codes| && codes[j] == codes[j']
    ensures j == j'
  {
  }

  /** Each course code occurs in the help reply exactly once: at its place in the listing. */
  lemma HelpCodeOnlyAtItsPlace(i: int, k: int)
    requires 0 <= i < |Courses|
    ensures OccursAt(HelpMessage, Courses[i].code, k) <==> k == |HelpHeader| + ListingOffset(HelpCodes, i)
  {
    var lead, rest := "\nTo get the course description, execute command: about ", "course_number>";
    UsageShape(lead, rest);
    PiecesHaveNoE(lead, rest);
    HelpCodesShape();
    HelpListsTheCatalog();
    CodeOnceInMessage(HelpMessage, Courses[i].code, HelpHeader, HelpCodes, lead, rest, i, k);
  }

  /** The help tuple's codes have the catalog's shape and are distinct. */
  lemma HelpCodesShape()
    ensures forall j :: 0 <= j < |HelpCodes| ==> CodeShape(HelpCodes[j])
    ensures forall j, j' :: 0 <= j < j' < |HelpCodes| ==> HelpCodes[j] != HelpCodes[j']
  {
    CatalogShape();
    HelpListsTheCatalog();
  }

  /** Offsets grow with the index: the listing keeps the order of its codes. */
  lemma {:induction false} OffsetsIncrease(codes: seq<string>, i: nat)
    requires i <= |codes|
    ensures forall j :: 0 <= j < i ==> ListingOffset(codes, j) < ListingOffset(codes, i)
    decreases i
  {
    if i > 0 {
      OffsetsIncrease(codes, i - 1);
    }
  }
}

=== FILE: events.dfy ===
/**
  Event selection (`parse_bot_commands`) and one iteration of the polling
  loop: from a batch of raw events and the bot's own user id to the message
  that would be posted, if any.

  An event is a dictionary in the source; each key it may lack is an Option
  here. Looking up a missing `type`, `text` or `channel` raises `KeyError`,
  which ends the loop; `subtype` is only checked for presence.
*/
module Events {
  import opened Wrappers
  import opened Text
  import opened Mention
  import opened Router

  /** One event of an `rtm_read()` batch; `kind` is the `"type"` key. */
  datatype Event = Event(
    kind: Option<string>,
    subtype: Option<string>,
    text: Option<string>,
    channel: Option<string>)

  /** What `parse_bot_commands` makes of a batch, or of one event. */
  datatype Scan =
    | Command(command: string, channel: string)
    | NoCommand
    | KeyError(key: string)

  /** A plain message: type `"message"` and no `subtype` key. */
  predicate Eligible(e: Event) {
    e.kind == Some("message") && e.subtype.None?
  }

  /**
    The body of the loop of `parse_bot_commands` for one event: NoCommand
    means "go on to the next event". Keys are looked up in the order the
    source reads them: `type`, then `text`, then `channel` only on a match.
  */
  function Examine(e: Event, botId: string): (r: Scan)
    ensures r == KeyError("type") <==> e.kind.None?
    ensures r == KeyError("text") <==> Eligible(e) && e.text.None?
    ensures r == KeyError("channel") <==>
              Eligible(e) && e.text.Some? && e.channel.None? && Addresses(e.text.value, botId)
    ensures r.Command? <==>
              Eligible(e) && e.text.Some? && e.channel.Some? && Addresses(e.text.value, botId)
    ensures r.Command? ==> r.channel == e.channel.value
                           && r.command == Remainder(e.text.value, |botId| + 2)
    ensures r.KeyError? ==> r.key in {"type", "text", "channel"}
  {
    match e.kind
    case None => KeyError("type")
    case Some(k) =>
      if k != "message" || e.subtype.Some? then NoCommand
      else
        match e.text
        case None => KeyError("text")
        case Some(t) =>
          var parsed := ParseDirectMention(t);
          ParseFindsAddressee(t, botId);
          if parsed.Some? && parsed.value.id == botId then
            match e.channel
            case None => KeyError("channel")
            case Some(c) => Command(parsed.value.rest, c)
          else NoCommand
  }

  /** Every event before index `i` lets the scan go on. */
  predicate AllPass(events: seq<Event>, botId: string, i: int)
    requires 0 <= i <= |events|
  {
    forall j :: 0 <= j < i ==> Examine(events[j], botId) == NoCommand
  }

  /**
    `parse_bot_commands(events)`: the verdict of the first event, in list
    order, that stops the scan (a command for this bot or a missing key); later
    events are never looked at. NoCommand stands for `(None, None)`.
  */
  function ParseBotCommands(events: seq<Event>, botId: string): (r: Scan)
    ensures r == NoCommand <==> AllPass(events, botId, |events|)
    ensures r != NoCommand ==>
              exists i :: 0 <= i < |events| && AllPass(events, botId, i)
                          && r == Examine(events[i], botId)
  {
    if events == [] then NoCommand
    else
      var v := Examine(events[0], botId);
      if v != NoCommand then
        assert AllPass(events, botId, 0);
        v
      else
        var r := ParseBotCommands(events[1..], botId);
        assert forall j :: 1 <= j < |events| ==> events[1..][j - 1] == events[j];
        if r != NoCommand then
          var i :| 0 <= i < |events| - 1 && AllPass(events[1..], botId, i)
                   && r == Examine(events[1..][i], botId);
          assert AllPass(events, botId, i + 1);
          r
        else
          r
  }

  /** The effect of one loop iteration. */
  datatype Outcome =
    | Post(channel: string, text: string)   // `chat.postMessage` to `channel`
    | Idle                                  // nothing sent this cycle
    | Crash(key: string)                    // a KeyError escaped the loop

  /**
    One iteration of the main loop: scan the batch, and when a non-empty
    command was found (`if command:`), post the reply to its channel.
  */
  function PollStep(events: seq<Event>, botId: string): (r: Outcome)
    ensures r.Post? <==> ParseBotCommands(events, botId).Command?
                         && ParseBotCommands(events, botId).command != []
    ensures r.Post? ==> r.text != [] && r.channel == ParseBotCommands(events, botId).channel
                        && r.text == Reply(ParseBotCommands(events, botId).command)
    ensures r.Crash? <==> ParseBotCommands(events, botId).KeyError?
    ensures r.Crash? ==> r.key == ParseBotCommands(events, botId).key
    ensures r.Crash? ==> r.key in {"type", "text", "channel"}
  {
    Dispatch(ParseBotCommands(events, botId))
  }

  /**
    The `if command:` gate of the loop: only a non-empty command is handled;
    an empty command and `(None, None)` alike send nothing.
  */
  function Dispatch(scan: Scan): (r: Outcome)
    ensures r.Post? <==> scan.Command? && scan.command != []
    ensures r.Post? ==> r.channel == scan.channel && r.text == Reply(scan.command)
    ensures r.Crash? <==> scan.KeyError?
    ensures r.Crash? ==> r.key == scan.key
  {
    match scan
    case Command(command, channel) =>
      if command != [] then Post(channel, Reply(command)) else Idle
    case NoCommand => Idle
    case KeyError(key) => Crash(key)
  }

  /** Dropping the head of a concatenation (kept apart from the scan's contracts for speed). */
  lemma TailOfAppend(a: seq<Event>, b: seq<Event>)
    requires a != []
    ensures (a + b)[0] == a[0] && (a + b)[1..] == a[1..] + b
  {
  }

  /** Once an event stops the scan, appending events to the batch changes nothing. */
  lemma {:induction false} LaterEventsIgnored(events: seq<Event>, more: seq<Event>, botId: string)
    requires ParseBotCommands(events, botId) != NoCommand
    ensures ParseBotCommands(events + more, botId) == ParseBotCommands(events, botId)
  {
    TailOfAppend(events, more);
    if Examine(events[0], botId) == NoCommand {
      LaterEventsIgnored(events[1..], more, botId);
    }
  }

  /** If a whole batch lets the scan go on, so does its tail. */
  lemma AllPassTail(events: seq<Event>, botId: string)
    requires events != [] && AllPass(events, botId, |events|)
    ensures AllPass(events[1..], botId, |events| - 1)
  {
    forall j | 0 <= j < |events| - 1
      ensures Examine(events[1..][j], botId) == NoCommand
    {
      assert events[1..][j] == events[j + 1];
    }
  }

  /** An event that lets the scan go on leaves the verdict to the rest of the batch. */
  lemma FirstPasses(events: seq<Event>, botId: string)
    requires events != [] && Examine(events[0], botId) == NoCommand
    ensures ParseBotCommands(events, botId) == ParseBotCommands(events[1..], botId)
  {
  }

  /** Dropping the first event keeps "every event before index `i` lets the scan go on", one index earlier. */
  lemma AllPassDrop(events: seq<Event>, botId: string, i: int)
    requires 1 <= i <= |events| && AllPass(events, botId, i)
    ensures AllPass(events[1..], botId, i - 1)
    ensures Examine(events[0], botId) == NoCommand
    ensures i < |events| ==> events[1..][i - 1] == events[i]
  {
    forall j | 0 <= j < i - 1
      ensures Examine(events[1..][j], botId) == NoCommand
    {
      assert events[1..][j] == events[j + 1];
    }
  }

  /** Events that all let the scan go on can be dropped from the front of a batch. */
  lemma {:induction false} PassingEventsIgnored(events: seq<Event>, more: seq<Event>, botId: string)
    requires AllPass(events, botId, |events|)
    ensures ParseBotCommands(events + more, botId) == ParseBotCommands(more, botId)
  {
    if events == [] {
      assert events + more == more;
    } else {
      TailOfAppend(events, more);
      AllPassTail(events, botId);
      PassingEventsIgnored(events[1..], more, botId);
      assert Examine(events[0], botId) == NoCommand;
    }
  }

  /**
    An event that has a type but is not a plain message (another type, or any
    subtype) never yields a command, whatever its text: the scan skips it.
  */
  lemma IneligibleSkipped(e: Event, rest: seq<Event>, botId: string)
    requires e.kind.Some? && !Eligible(e)
    ensures ParseBotCommands([e] + rest, botId) == ParseBotCommands(rest, botId)
  {
    TailOfAppend([e], rest);
  }

  /** A plain message that does not directly mention this bot is skipped too. */
  lemma OtherMentionSkipped(e: Event, rest: seq<Event>, botId: string)
    requires Eligible(e) && e.text.Some? && !Addresses(e.text.value, botId)
    ensures ParseBotCommands([e] + rest, botId) == ParseBotCommands(rest, botId)
  {
    TailOfAppend([e], rest);
  }

  /**
    A bot id the mention pattern cannot capture (not empty and not starting
    with `W` or `U`, such as `BOT`) is never addressed: no batch ever yields a
    command for it.
  */
  lemma InvalidBotIdNeverCommanded(events: seq<Event>, botId: string)
    requires !ValidId(botId)
    ensures !ParseBotCommands(events, botId).Command?
  {
    forall i | 0 <= i < |events|
      ensures !Examine(events[i], botId).Command?
    {
      if events[i].text.Some? {
        InvalidIdNeverAddressed(events[i].text.value, botId);
      }
    }
  }

  /** The first event that stops the scan decides its result, whatever follows. */
  lemma {:induction false} ScanStopsAt(events: seq<Event>, botId: string, i: int)
    requires 0 <= i < |events| && AllPass(events, botId, i)
    requires Examine(events[i], botId) != NoCommand
    ensures ParseBotCommands(events, botId) == Examine(events[i], botId)
    decreases i
  {
    if i > 0 {
      AllPassDrop(events, botId, i);
      ScanStopsAt(events[1..], botId, i - 1);
      FirstPasses(events, botId);
    }
  }

  /**
    What a cycle posts: when the first event that stops the scan is a command
    for this bot with a non-empty text, its reply goes to its channel.
  */
  lemma PollPostsFirstCommand(events: seq<Event>, botId: string, i: int)
    requires 0 <= i < |events| && AllPass(events, botId, i)
    requires Examine(events[i], botId).Command? && Examine(events[i], botId).command != []
    ensures PollStep(events, botId)
              == Post(Examine(events[i], botId).channel, Reply(Examine(events[i], botId).command))
  {
    ScanStopsAt(events, botId, i);
  }

  /** A plain message of `"<@" + id + ">" + line` sent to `channel`. */
  function Mentioning(id: string, line: string, channel: string): Event {
    Event(Some("message"), None, Some("<@" + id + ">" + line), Some(channel))
  }

  /** A well-formed direct mention of the bot on one line gives its stripped command. */
  lemma MentionOfBot(id: string, line: string, channel: string)
    requires ValidId(id) && NoEarlyClose(id)
    requires forall k :: 0 <= k < |line| ==> line[k] != '\n'
    ensures Examine(Mentioning(id, line, channel), id) == Command(Strip(line), channel)
  {
    var text := "<@" + id + ">" + line;
    assert text + "" == text;
    RoundTrip(id, line, "");
    ParseFindsAddressee(text, id);
  }

  /**
   * Only the first line of a message counts: `(.*)` stops at the first line feed, so
   * whatever follows it is dropped before the command is stripped.
   */
  lemma MentionAcrossLines(id: string, line: string, more: string, channel: string)
    requires ValidId(id) && NoEarlyClose(id)
    requires forall k :: 0 <= k < |line| ==> line[k] != '\n'
    requires more == [] || more[0] == '\n'
    ensures Examine(Mentioning(id, line + more, channel), id) == Command(Strip(line), channel)
  {
    var text := "<@" + id + ">" + line + more;
    assert "<@" + id + ">" + (line + more) == text;
    RoundTrip(id, line, more);
    ParseFindsAddressee(text, id);
  }

  /**
   * Addressing `<@U0BOT>` with nothing but white space on the rest of its line is
   * scanned but not dispatched, even when a command follows on a later line.
   */
  lemma BareMentionIdle(id: string, blanks: string, channel: string, rest: seq<Event>)
    requires ValidId(id) && NoEarlyClose(id)
    requires Strip(FirstLine(blanks)) == []
    ensures PollStep([Mentioning(id, blanks, channel)] + rest, id) == Idle
  {
    var events := [Mentioning(id, blanks, channel)] + rest;
    var line := FirstLine(blanks);
    var more := blanks[|line|..];
    assert line + more == blanks;
    MentionAcrossLines(id, line, more, channel);
    assert events[0] == Mentioning(id, blanks, channel);
    ScanStopsAt(events, id, 0);
  }
}

=== FILE: mention.dfy ===
/**
  The direct-mention recogniser, `parse_direct_mention` with the fixed pattern
  `^<@(|[WU].+?)>(.*)`, written by hand over `seq<char>`.

  The pattern is anchored at index 0. Its id group tries the empty alternative
  first, so `<@>` gives the empty id; otherwise the id is `W` or `U` followed by
  a lazy `.+?`, i.e. the SHORTEST run of at least one non-line-feed character
  that is followed by `>`. The remainder group `(.*)` takes the rest of that
  line, which is then stripped.
*/
module Mention {
  import opened Wrappers
  import opened Text

  /** A successful parse: group 1 and the stripped group 2. */
  datatype Mention = Mention(id: string, rest: string)

  /** The ids the group `(|[WU].+?)` can capture, ignoring laziness. */
  predicate ValidId(id: string) {
    || id == []
    || (|id| >= 2 && (id[0] == 'W' || id[0] == 'U')
        && forall k :: 0 <= k < |id| ==> id[k] != '\n')
  }

  /**
    `id` is a way for the pattern to match `text` up to and including the
    closing `>`, ignoring laziness: `text` begins with `"<@" + id + ">"`.
  */
  predicate Candidate(text: string, id: string) {
    && ValidId(id)
    && StartsWith(text, "<@")
    && |id| + 3 <= |text|
    && text[2..|id| + 2] == id
    && text[|id| + 2] == '>'
  }

  /** The concatenated reading of Candidate. */
  lemma CandidateIsPrefix(text: string, id: string)
    requires Candidate(text, id)
    ensures StartsWith(text, "<@" + id + ">")
  {
    assert text[..|id| + 3] == text[..2] + text[2..|id| + 2] + [text[|id| + 2]];
  }

  /**
    The id the regex engine settles on: a candidate no other candidate is
    shorter than (the empty alternative is tried first, then `.+?` is lazy).
  */
  ghost predicate Addresses(text: string, id: string) {
    Candidate(text, id) && forall other :: Candidate(text, other) ==> |id| <= |other|
  }

  /** Two candidates of the same length are the same id. */
  lemma CandidateUnique(text: string, a: string, b: string)
    requires Candidate(text, a) && Candidate(text, b) && |a| == |b|
    ensures a == b
  {
  }

  /**
    What a candidate says about the characters of `text`: the shape the
    recogniser tests before and during its scan.
  */
  lemma CandidateShape(text: string, id: string)
    ensures Candidate(text, id) ==>
              && StartsWith(text, "<@")
              && (id == [] ==> |text| >= 3 && text[2] == '>')
              && (id != [] ==> && |text| >= |id| + 3
                               && (text[2] == 'W' || text[2] == 'U') && text[2] != '>'
                               && text[3] != '\n'
                               && text[|id| + 2] == '>'
                               && NoNewline(text, 4, |id| + 2))
  {
    if Candidate(text, id) && id != [] {
      assert text[2] == id[0] && text[3] == id[1];
      forall k | 4 <= k < |id| + 2
        ensures text[k] != '\n'
      {
        assert text[k] == id[k - 2];
      }
    }
  }

  /**
    The lazy `.+?>` scan: the least `j >= from` with `text[j] == '>'` such that
    no line feed comes between `from` and `j`, if any.
  */
  function FindClose(text: string, from: nat): (r: Option<nat>)
    requires from <= |text|
    ensures r.Some? ==> from <= r.value < |text| && text[r.value] == '>'
                        && NoNewline(text, from, r.value)
                        && forall k :: from <= k < r.value ==> text[k] != '>'
    ensures r.None? ==> forall j :: from <= j < |text| && text[j] == '>' ==> !NoNewline(text, from, j)
    decreases |text| - from
  {
    if from == |text| then None
    else if text[from] == '>' then Some(from)
    else if text[from] == '\n' then None
    else FindClose(text, from + 1)
  }

  /** The scan from `from` stops at `j` when `text[from..j]` holds neither `>` nor a line feed. */
  lemma {:induction false} FindCloseAt(text: string, from: nat, j: nat)
    requires from <= j < |text| && text[j] == '>'
    requires forall k :: from <= k < j ==> text[k] != '>' && text[k] != '\n'
    ensures FindClose(text, from) == Some(j)
    decreases j - from
  {
    if from < j {
      FindCloseAt(text, from + 1, j);
    }
  }

  /** Group 2 after the closing `>` at index `close`, stripped. */
  function Remainder(text: string, close: nat): string
    requires close < |text|
  {
    Strip(FirstLine(text[close + 1..]))
  }

  /**
    `parse_direct_mention(text)`: `None` stands for the pair `(None, None)`.
    It succeeds exactly when some candidate id exists, returns the shortest
    one, and its remainder is what follows that id's `>` on the same line,
    stripped.
  */
  function ParseDirectMention(text: string): (r: Option<Mention>)
    ensures r.None? <==> forall id :: !Candidate(text, id)
    ensures r.Some? ==> Addresses(text, r.value.id)
    ensures r.Some? ==> r.value.rest == Remainder(text, |r.value.id| + 2)
  {
    if !StartsWith(text, "<@") || |text| < 3 then None
    else if text[2] == '>' then
      assert Candidate(text, []);
      Some(Mention([], Remainder(text, 2)))
    else if |text| >= 4 && (text[2] == 'W' || text[2] == 'U') && text[3] != '\n' then
      match FindClose(text, 4)
      case Some(j) =>
        var id := text[2..j];
        ShortestNonEmpty(text, j);
        Some(Mention(id, Remainder(text, j)))
      case None =>
        NoCandidateWithoutClose(text);
        None
    else
      NoCandidateAtStart(text);
      None
  }

  /** When the scan from index 4 finds its `>` at `j`, `text[2..j]` is the shortest candidate. */
  lemma ShortestNonEmpty(text: string, j: nat)
    requires StartsWith(text, "<@") && 4 <= j < |text|
    requires (text[2] == 'W' || text[2] == 'U') && text[3] != '\n'
    requires text[j] == '>' && NoNewline(text, 4, j)
    requires forall k :: 4 <= k < j ==> text[k] != '>'
    ensures Addresses(text, text[2..j])
  {
    var id := text[2..j];
    assert ValidId(id) by {
      assert id[0] == text[2];
      forall k | 0 <= k < |id|
        ensures id[k] != '\n'
      {
        assert id[k] == text[k + 2];
      }
    }
    forall other | Candidate(text, other)
      ensures |id| <= |other|
    {
      CandidateShape(text, other);
    }
  }

  /** The scan found no `>` on the first line: no candidate exists. */
  lemma NoCandidateWithoutClose(text: string)
    requires StartsWith(text, "<@") && |text| >= 4 && text[2] != '>'
    requires FindClose(text, 4).None?
    ensures forall id :: !Candidate(text, id)
  {
    forall id
      ensures !Candidate(text, id)
    {
      CandidateShape(text, id);
    }
  }

  /** The text does not open with `<@>` or `<@W`/`<@U` and a non-line-feed: no candidate. */
  lemma NoCandidateAtStart(text: string)
    requires !(StartsWith(text, "<@") && |text| >= 3 && text[2] == '>')
    requires !(StartsWith(text, "<@") && |text| >= 4 && (text[2] == 'W' || text[2] == 'U') && text[3] != '\n')
    ensures forall id :: !Candidate(text, id)
  {
    forall id
      ensures !Candidate(text, id)
    {
      CandidateShape(text, id);
    }
  }

  /** The parse result and the declarative Addresses describe the same id. */
  lemma ParseFindsAddressee(text: string, id: string)
    ensures (ParseDirectMention(text).Some? && ParseDirectMention(text).value.id == id)
            <==> Addresses(text, id)
  {
    var r := ParseDirectMention(text);
    if Addresses(text, id) {
      assert r.Some?;
      CandidateUnique(text, r.value.id, id);
    }
  }

  /** A text addresses at most one id. */
  lemma AddressesUnique(text: string, a: string, b: string)
    requires Addresses(text, a)
    ensures Addresses(text, b) ==> a == b
  {
    if Addresses(text, b) {
      CandidateUnique(text, a, b);
    }
  }

  /** Ids the pattern cannot capture, such as `BOT`, are never addressed. */
  lemma InvalidIdNeverAddressed(text: string, id: string)
    requires !ValidId(id)
    ensures !Addresses(text, id)
  {
  }

  /** Only the very start counts: a text not opening with `<@` is never a direct mention. */
  lemma MidSentenceIgnored(text: string)
    requires !StartsWith(text, "<@")
    ensures ParseDirectMention(text).None?
  {
  }

  /** A candidate's closing `>` lies on the first line of the text. */
  lemma CandidateOnFirstLine(text: string, id: string)
    ensures Candidate(text, id) ==>
              |id| + 2 < |FirstLine(text)| && FirstLine(text)[|id| + 2] == '>'
  {
    if Candidate(text, id) {
      CandidateShape(text, id);
      var line := FirstLine(text);
      var n := |id| + 2;
      forall k | 0 <= k <= n
        ensures text[k] != '\n'
      {
        if 2 <= k < n { assert text[k] == id[k - 2]; }
      }
      assert n < |line|;
      assert line[n] == text[n];
    }
  }

  /** With no `>` on its first line (after `<@`), a text is never a direct mention. */
  lemma NoCloseOnFirstLine(text: string)
    requires forall k :: 2 <= k < |FirstLine(text)| ==> FirstLine(text)[k] != '>'
    ensures ParseDirectMention(text).None?
  {
    forall id
      ensures !Candidate(text, id)
    {
      CandidateOnFirstLine(text, id);
    }
  }

  /**
    No `>` occurs in `id` after its second character, so the lazy `.+?` cannot
    stop early inside it.
  */
  predicate NoEarlyClose(id: string) {
    forall k :: 2 <= k < |id| ==> id[k] != '>'
  }

  /** A candidate `id` with no early `>` is not beaten by a shorter candidate. */
  lemma NoShorterCandidate(text: string, id: string, other: string)
    requires Candidate(text, id) && NoEarlyClose(id)
    ensures Candidate(text, other) ==> |id| <= |other|
  {
    CandidateShape(text, other);
    if id != [] {
      assert text[2] == id[0];
      if other != [] && |other| < |id| {
        assert text[|other| + 2] == id[|other|];
      }
    }
  }

  /**
    Round trip: addressing `id` with a one-line command and parsing the result
    gives back `id` and the stripped command, whatever follows on later lines.
  */
  lemma RoundTrip(id: string, line: string, more: string)
    requires ValidId(id) && NoEarlyClose(id)
    requires forall k :: 0 <= k < |line| ==> line[k] != '\n'
    requires more == [] || more[0] == '\n'
    ensures ParseDirectMention("<@" + id + ">" + line + more) == Some(Mention(id, Strip(line)))
  {
    var rest := line + more;
    var text := "<@" + id + ">" + line + more;
    var n := |id| + 2;
    assert text == "<@" + id + ">" + rest;
    assert text[..2] == "<@";
    assert text[2..n] == id;
    assert text[n] == '>';
    assert text[n + 1..] == rest;
    assert Candidate(text, id);
    forall other
      ensures Candidate(text, other) ==> |id| <= |other|
    {
      NoShorterCandidate(text, id, other);
    }
    assert Addresses(text, id);
    ParseFindsAddressee(text, id);
    FirstLineOf(line, more);
  }

  /**
    `<@U12345> about ENPM611 `: a well-formed Slack mention followed by a
    command. The literals are parameters pinned by `requires`,
    which keeps the solver from unfolding them.
  */
  lemma ParsesUserAndCommand(id: string, line: string)
    requires id == "U12345" && line == " about ENPM611 "
    ensures ParseDirectMention("<@" + id + ">" + line) == Some(Mention(id, "about ENPM611"))
  {
    var text := "<@" + id + ">" + line;
    assert text + "" == text;
    assert Strip(line) == "about ENPM611" by {
      StripIs(line, 1, 14);
      assert line[1..14] == "about ENPM611";
    }
    RoundTrip(id, line, "");
  }

  /** Laziness: `<@U>>x` takes the shortest id `U>`, not the empty or a longer one. */
  lemma LazyIdExample()
    ensures ParseDirectMention("<@U>>x") == Some(Mention("U>", "x"))
  {
    var id, line := "U>", "x";
    assert "<@U>>x" == "<@" + id + ">" + line;
    var text := "<@" + id + ">" + line;
    assert text + "" == text;
    assert Strip(line) == line by {
      StripIs(line, 0, 1);
    }
    RoundTrip(id, line, "");
  }

  /** The empty alternative: `<@>` mentions the empty id. */
  lemma EmptyIdExample()
    ensures ParseDirectMention("<@> help") == Some(Mention("", "help"))
  {
    var text := "<@> help";
    var line := " help";
    assert text == "<@" + "" + ">" + line + "";
    assert StartsWith(text, "<@");
    assert text[2..2] == "";
    assert text[3..] == line + "";
    assert FirstLine(line + "") == line by {
      FirstLineOf(line, "");
    }
    assert Strip(line) == "help" by {
      StripIs(line, 1, 5);
      assert line[1..5] == "help";
    }
  }

  /** `<@W9> help` then a second line: the remainder stops at the first line feed. */
  lemma RemainderIsFirstLine()
    ensures ParseDirectMention("<@W9> help\nabout ENPM611") == Some(Mention("W9", "help"))
  {
    var id, line, more := "W9", " help", "\nabout ENPM611";
    assert "<@W9> help\nabout ENPM611" == "<@" + id + ">" + line + more;
    assert Strip(line) == "help" by {
      StripIs(line, 1, 5);
      assert line[1..5] == "help";
    }
    RoundTrip(id, line, more);
  }

  /** A line feed before the closing `>` defeats the match. */
  lemma NewlineInIdRejected()
    ensures ParseDirectMention("<@U1\n>help") == None
  {
    var text := "<@U1\n>help";
    assert StartsWith(text, "<@");
    assert FindClose(text, 4) == None;
  }
}

=== FILE: router.dfy ===
/**
  Reply selection, the part of `handle_command` that decides what text is
  posted: literal-prefix routing on `about` (checked first) and `help`, and
  the default reply for everything else or for an empty answer.
*/
module Router {
  import opened Wrappers
  import opened Text
  import opened Catalog

  const AboutCommand := "about"
  const HelpCommand := "help"
  const DefaultResponse := "Hmm, I don't understand."

  /** Python's `response or default_response`: None and the empty string fall back to the default. */
  function OrDefault(response: Option<string>): (r: string)
    ensures response.Some? && response.value != [] ==> r == response.value
    ensures response.None? || response.value == [] ==> r == DefaultResponse
  {
    if response.Some? && response.value != [] then response.value else DefaultResponse
  }

  /** `Reply` is one of the catalog's entries. */
  ghost predicate IsEntry(r: string) {
    exists i :: 0 <= i < |Courses| && r == Courses[i].entry
  }

  /**
    The text `handle_command(command, channel)` posts. A command starting with
    `about` gets the entry of the first catalog code it contains, or the
    default when it contains none; otherwise one starting with `help` gets the
    help text; anything else gets the default. The reply is never empty.
  */
  function Reply(command: string): (r: string)
    ensures r != []
    ensures r == DefaultResponse || r == HelpMessage || IsEntry(r)
    ensures StartsWith(command, AboutCommand) ==>
              (r == DefaultResponse <==> forall j :: 0 <= j < |Courses| ==> !Contains(command, Courses[j].code))
    ensures StartsWith(command, AboutCommand) ==>
              forall i :: FirstHit(Courses, command, i) ==> r == Courses[i].entry
    ensures !StartsWith(command, AboutCommand) && StartsWith(command, HelpCommand) ==> r == HelpMessage
    ensures !StartsWith(command, AboutCommand) && !StartsWith(command, HelpCommand) ==> r == DefaultResponse
  {
    var response :=
      if StartsWith(command, AboutCommand) then AboutCourse(command)
      else if StartsWith(command, HelpCommand) then Some(HelpMessage)
      else None;
    EntriesAreNotDefault();
    OrDefault(response)
  }

  /** No catalog entry is empty or equal to the default reply, so an `about` hit is never masked. */
  lemma EntriesAreNotDefault()
    ensures forall i :: 0 <= i < |Courses| ==> Courses[i].entry != [] && Courses[i].entry != DefaultResponse
    ensures HelpMessage != []
  {
  }

  /** `about <code>` is answered with that course's entry, for every code of the catalog. */
  lemma AboutCodeReply(i: int)
    requires 0 <= i < |Courses|
    ensures Reply("about " + Courses[i].code) == Courses[i].entry
  {
    var command := "about " + Courses[i].code;
    AboutOwnCode(i);
    assert command[..5] == AboutCommand;
  }

  /** `aboutENPM611`: the prefix test is literal, so no space is needed after `about`. */
  lemma AboutWithoutSpace()
    ensures Reply("aboutENPM611") == Courses[0].entry
  {
    var command := "aboutENPM611";
    assert command == "about" + Courses[0].code + "";
    OwnCodeSelected("about", 0, "");
  }

  /** `about` is checked first: `about help` is an about-command with no code, so it gets the default. */
  lemma AboutCheckedFirst()
    ensures Reply("about help") == DefaultResponse
  {
    var command := "about help";
    assert StartsWith(command, AboutCommand);
    forall j | 0 <= j < |Courses|
      ensures !Contains(command, Courses[j].code)
    {
      assert forall k :: 0 <= k < |command| ==> command[k] != 'E';
      CatalogShape();
      assert Courses[j].code[0] == 'E';
      assert forall k :: 0 <= k <= |command| - |Courses[j].code| ==> !OccursAt(command, Courses[j].code, k);
    }
  }

  /** `helpme` and `help about ENPM611` both get the help text: prefixes, not words. */
  lemma HelpByPrefix(command: string)
    requires StartsWith(command, HelpCommand)
    ensures Reply(command) == HelpMessage
  {
    assert !StartsWith(command, AboutCommand) by {
      assert command[0] == command[..4][0] == 'h';
    }
  }
}

=== FILE: scenarios.dfy ===
/**
  End-to-end poll cycles over one-event batches: the message that is posted,
  or that nothing is.
*/
module Scenarios {
  import opened Wrappers
  import opened Text
  import opened Mention
  import opened Catalog
  import opened Router
  import opened Events

  /** ` about <code>` is one line, and stripping it leaves `about <code>`. */
  lemma AboutLine(code: string)
    requires CodeShape(code)
    ensures forall k :: 0 <= k < |" about " + code| ==> (" about " + code)[k] != '\n'
    ensures Strip(" about " + code) == "about " + code
  {
    var line := " about " + code;
    ShapeFacts(code);
    forall k | 0 <= k < |line|
      ensures line[k] != '\n'
    {
      if k >= 7 { assert line[k] == code[k - 7]; }
    }
    assert line[|line| - 1] == code[|code| - 1];
    StripIs(line, 1, |line|);
    assert line[1..] == "about " + code;
  }

  /**
    `<@ID> about <code>` from any id the pattern can capture posts that
    course's entry to the channel the message came from.
  */
  lemma AboutCommandPosted(botId: string, i: int, channel: string)
    requires ValidId(botId) && NoEarlyClose(botId) && 0 <= i < |Courses|
    ensures PollStep([Mentioning(botId, " about " + Courses[i].code, channel)], botId)
            == Post(channel, Courses[i].entry)
  {
    var code := Courses[i].code;
    CatalogShape();
    AboutLine(code);
    var e := Mentioning(botId, " about " + code, channel);
    MentionOfBot(botId, " about " + code, channel);
    AboutCodeReply(i);
    PollPostsFirstCommand([e], botId, 0);
  }

  /**
    `<@U0BOT> about ENPM694` to `C1` posts the ENPM694 entry (Networks and
    Protocols, Sohraab Soltani: see `NetworksAndProtocolsEntry`) to `C1`.
  */
  lemma AboutCourseIsPosted()
    ensures PollStep([Mentioning("U0BOT", " about ENPM694", "C1")], "U0BOT") == Post("C1", Courses[6].entry)
  {
    var botId, line := "U0BOT", " about ENPM694";
    assert line == " about " + Courses[6].code;
    AboutCommandPosted(botId, 6, "C1");
  }

  /** `<@U0OTHER> about ENPM694` is a mention of someone else: nothing is sent. */
  lemma OtherUserIgnored()
    ensures PollStep([Mentioning("U0OTHER", " about ENPM694", "C1")], "U0BOT") == Idle
  {
    var botId, other, line := "U0BOT", "U0OTHER", " about ENPM694";
    var e := Mentioning(other, line, "C1");
    MentionOfBot(other, line, "C1");
    AddressesUnique(e.text.value, other, botId);
    OtherMentionSkipped(e, [], botId);
    assert [e] + [] == [e];
  }

  /** `<@U0BOT> foobar` is not a known command: the default reply is sent. */
  lemma UnknownCommandGetsDefault()
    ensures PollStep([Mentioning("U0BOT", " foobar", "C1")], "U0BOT") == Post("C1", DefaultResponse)
  {
    var botId, line := "U0BOT", " foobar";
    var command := "foobar";
    var e := Mentioning(botId, line, "C1");
    assert Examine(e, botId) == Command(command, "C1") by {
      assert Strip(line) == command by {
        StripIs(line, 1, |line|);
        assert line[1..] == command;
      }
      MentionOfBot(botId, line, "C1");
    }
    assert Reply(command) == DefaultResponse by {
      FirstCharDiffers(command, AboutCommand);
      FirstCharDiffers(command, HelpCommand);
    }
    PollPostsFirstCommand([e], botId, 0);
  }

  /**
    With the bot id `BOT`, `<@BOT> about ENPM694` is not a direct mention at
    all: the id group only captures the empty id or ids starting with `W` or
    `U`, so nothing is sent.
  */
  lemma UnprefixedBotIdIgnored()
    ensures PollStep([Mentioning("BOT", " about ENPM694", "C1")], "BOT") == Idle
  {
    var botId, line := "BOT", " about ENPM694";
    InvalidBotIdNeverCommanded([Mentioning(botId, line, "C1")], botId);
  }

  /**
    A command written on the line after the mention is not seen: the command group
    stops at the line feed, so the mention carries an empty command and nothing is sent.
  */
  lemma CommandOnNextLineIgnored()
    ensures PollStep([Mentioning("U1", "\nhelp", "C1")], "U1") == Idle
  {
    var events := [Mentioning("U1", "\nhelp", "C1")];
    assert FirstLine("\nhelp") == [] by { FirstLineOf([], "\nhelp"); }
    assert events + [] == events;
    BareMentionIdle("U1", "\nhelp", "C1", []);
  }
}

=== FILE: text.dfy ===
/**
  String primitives the bot relies on, written over `seq<char>`:
  `str.startswith`, literal substring search (`re.search` with a pattern that
  has no metacharacters), the "rest of the first line" that the regex `.*`
  consumes, and `str.strip()` with no argument.
*/
module Text {

  /** `s.startswith(p)` */
  predicate StartsWith(s: string, p: string) {
    |p| <= |s| && s[..|p|] == p
  }

  /** `pat` occurs in `s` starting at index `k`. */
  predicate OccursAt(s: string, pat: string, k: int) {
    0 <= k && k + |pat| <= |s| && s[k..k + |pat|] == pat
  }

  /** `re.search(pat, s)` succeeds for a literal `pat`: it occurs somewhere in `s`. */
  predicate Contains(s: string, pat: string) {
    exists k | 0 <= k <= |s| - |pat| :: OccursAt(s, pat, k)
  }

  /**
    Python's `str.isspace()` for one code point: the characters `str.strip()`
    removes when called without an argument.
  */
  predicate IsSpace(c: char) {
    var n := c as int;
    || 0x09 <= n <= 0x0D
    || 0x1C <= n <= 0x20
    || n == 0x85 || n == 0xA0 || n == 0x1680
    || 0x2000 <= n <= 0x200A
    || n == 0x2028 || n == 0x2029 || n == 0x202F || n == 0x205F || n == 0x3000
  }

  /** No character of `s[lo..hi]` is a line feed (the regex `.` refuses only `'\n'`). */
  predicate NoNewline(s: string, lo: int, hi: int)
    requires 0 <= lo <= hi <= |s|
  {
    forall k :: lo <= k < hi ==> s[k] != '\n'
  }

  /** Index of the first line feed at or after `i`, or `|s|` when there is none. */
  function LineEnd(s: string, i: nat): (j: nat)
    requires i <= |s|
    ensures i <= j <= |s|
    ensures NoNewline(s, i, j)
    ensures j < |s| ==> s[j] == '\n'
    decreases |s| - i
  {
    if i == |s| || s[i] == '\n' then i else LineEnd(s, i + 1)
  }

  /** What the greedy `(.*)` captures: `s` up to, not including, its first line feed. */
  function FirstLine(s: string): (r: string)
    ensures StartsWith(s, r)
    ensures forall k :: 0 <= k < |r| ==> r[k] != '\n'
    ensures |r| == |s| || s[|r|] == '\n'
  {
    s[..LineEnd(s, 0)]
  }

  /** Index of the first non-whitespace character at or after `i`, or `|s|`. */
  function SkipSpaces(s: string, i: nat): (j: nat)
    requires i <= |s|
    ensures i <= j <= |s|
    ensures forall k :: i <= k < j ==> IsSpace(s[k])
    ensures j < |s| ==> !IsSpace(s[j])
    decreases |s| - i
  {
    if i == |s| || !IsSpace(s[i]) then i else SkipSpaces(s, i + 1)
  }

  /** Walking back from `hi`, the end of the last non-whitespace character above `lo`. */
  function DropTrailing(s: string, lo: nat, hi: nat): (b: nat)
    requires lo <= hi <= |s|
    ensures lo <= b <= hi
    ensures forall k :: b <= k < hi ==> IsSpace(s[k])
    ensures b > lo ==> !IsSpace(s[b - 1])
    decreases hi - lo
  {
    if hi == lo || !IsSpace(s[hi - 1]) then hi else DropTrailing(s, lo, hi - 1)
  }

  /**
    `s.strip()`: the slice of `s` left after removing leading and trailing
    whitespace. Everything removed is whitespace, the slice is contiguous (its
    inner characters are untouched), and it neither starts nor ends with
    whitespace; an all-whitespace `s` strips to the empty string.
  */
  function Strip(s: string): (r: string)
    ensures exists a, b :: 0 <= a <= b <= |s| && r == s[a..b]
                           && (forall k :: 0 <= k < a ==> IsSpace(s[k]))
                           && (forall k :: b <= k < |s| ==> IsSpace(s[k]))
    ensures r != [] ==> !IsSpace(r[0]) && !IsSpace(r[|r| - 1])
    ensures r == [] <==> forall k :: 0 <= k < |s| ==> IsSpace(s[k])
  {
    var a := SkipSpaces(s, 0);
    var b := DropTrailing(s, a, |s|);
    s[a..b]
  }

  /** `LineEnd` from `i` is the end `e` of a newline-free stretch that stops at a line feed or the end. */
  lemma {:induction false} LineEndAt(s: string, i: nat, e: nat)
    requires i <= e <= |s| && NoNewline(s, i, e)
    requires e == |s| || s[e] == '\n'
    ensures LineEnd(s, i) == e
    decreases e - i
  {
    if i < e {
      LineEndAt(s, i + 1, e);
    }
  }

  /** The first line of `line + more` is `line` when `more` is empty or begins a new line. */
  lemma FirstLineOf(line: string, more: string)
    requires forall k :: 0 <= k < |line| ==> line[k] != '\n'
    requires more == [] || more[0] == '\n'
    ensures FirstLine(line + more) == line
  {
    var s := line + more;
    LineEndAt(s, 0, |line|);
    assert s[..|line|] == line;
  }

  /** `SkipSpaces` from `i` stops at `a` when `s[i..a]` is whitespace and `s[a]` is not. */
  lemma {:induction false} SkipSpacesAt(s: string, i: nat, a: nat)
    requires i <= a <= |s|
    requires forall k :: i <= k < a ==> IsSpace(s[k])
    requires a == |s| || !IsSpace(s[a])
    ensures SkipSpaces(s, i) == a
    decreases a - i
  {
    if i < a {
      SkipSpacesAt(s, i + 1, a);
    }
  }

  /** `DropTrailing` down from `hi` stops at `b` when `s[b..hi]` is whitespace and `s[b-1]` is not. */
  lemma {:induction false} DropTrailingAt(s: string, lo: nat, hi: nat, b: nat)
    requires lo <= b <= hi <= |s|
    requires forall k :: b <= k < hi ==> IsSpace(s[k])
    requires b == lo || !IsSpace(s[b - 1])
    ensures DropTrailing(s, lo, hi) == b
    decreases hi - b
  {
    if b < hi {
      DropTrailingAt(s, lo, hi - 1, b);
    }
  }

  /**
    `Strip` is determined by its contract: a slice `s[a..b]` with only
    whitespace around it and none at its ends is what `s.strip()` returns.
  */
  lemma StripIs(s: string, a: nat, b: nat)
    requires a <= b <= |s|
    requires forall k :: 0 <= k < a ==> IsSpace(s[k])
    requires forall k :: b <= k < |s| ==> IsSpace(s[k])
    requires a < b ==> !IsSpace(s[a]) && !IsSpace(s[b - 1])
    ensures Strip(s) == s[a..b]
  {
    if a < b {
      SkipSpacesAt(s, 0, a);
      DropTrailingAt(s, a, |s|, b);
    } else {
      SkipSpacesAt(s, 0, |s|);
      DropTrailingAt(s, |s|, |s|, |s|);
    }
  }

  /** An occurrence survives putting text before and after. */
  lemma OccursInContext(pre: string, s: string, post: string, pat: string, k: int)
    requires OccursAt(s, pat, k)
    ensures OccursAt(pre + s + post, pat, |pre| + k)
  {
    var t := pre + s + post;
    forall m | 0 <= m < |pat|
      ensures t[|pre| + k + m] == pat[m]
    {
      assert t[|pre| + k + m] == s[k + m];
      assert s[k..k + |pat|][m] == pat[m];
    }
    assert t[|pre| + k..|pre| + k + |pat|] == pat;
  }

  /** Each character of an occurrence is the pattern's character. */
  lemma OccursAtChar(s: string, pat: string, k: int, m: int)
    ensures OccursAt(s, pat, k) && 0 <= m < |pat| ==> k + m < |s| && s[k + m] == pat[m]
  {
    if OccursAt(s, pat, k) && 0 <= m < |pat| {
      assert s[k..k + |pat|][m] == s[k + m];
    }
  }

  /** Where `pat + more` occurs, so does `pat`. */
  lemma OccursPrefix(s: string, pat: string, more: string, k: int)
    ensures OccursAt(s, pat + more, k) ==> OccursAt(s, pat, k)
  {
    if OccursAt(s, pat + more, k) {
      assert s[k..k + |pat|] == s[k..k + |pat| + |more|][..|pat|];
    }
  }

  /** A string whose first character differs from that of `p` does not start with `p`. */
  lemma FirstCharDiffers(s: string, p: string)
    requires |s| > 0 && |p| > 0 && s[0] != p[0]
    ensures !StartsWith(s, p)
  {
    if |p| <= |s| {
      assert s[..|p|][0] == s[0];
    }
  }
}

=== FILE: wrappers.dfy ===
/** The Option datatype used for Python's `None`-or-value returns. */
module Wrappers {

  datatype Option<+T> = None | Some(value: T)
}
